=== FILE: README.md ===
# JSON-to-CSV converter: the record-flattening core

This project models the logic inside the browser component `JsonToCsvConverter`.
That component reads a JSON file, turns the parsed value into a list of records,
flattens each record into one level of dotted property paths, hands the records
to a CSV serialiser and downloads the result. It shows either an error banner or
a success banner.

Modules, one per concern:

- `Wrappers` (wrappers.dfy): `Option` and `Result`. A `Result.Err` carries the message of a thrown exception.
- `Json` (json.dfy): parsed JSON values. An object is an ordered list of (name, value) pairs. `OwnEntries` gives what `Object.keys(v)` followed by `v[k]` enumerates when a value is used as a record.
- `Dict` (dict.dfy): a plain JavaScript object used as an accumulator. `Put` is `acc[k] = v`: it updates the property in place or appends it. `PutAll` is `Object.assign`. Both are specified through their key order (`KeysOf`) and through lookups. `LastWrite` is the reference for "the last write wins".
- `Flatten` (flatten.dfy): `flattenObject`. The specification function `FlattenFrom` is the `reduce` over the keys with its accumulator. `FlattenObject` is the same thing written as a recursive method with a loop that mutates the accumulator. `Leaves` is an independent reference: it lists every leaf write in traversal order. The central theorem, `FlattenIsReplay`, says that flattening replays exactly those writes. The path, leaf-only, pass-through, empty-object and last-write-wins properties all follow from it.
- `Normalize` (normalize.dfy): `Array.isArray(x) ? x : [x]` followed by `map(flattenObject)`. A `null` record makes `Object.keys` throw.
- `Converter` (converter.dfy): the whole conversion attempt (`Converted`) and the class `ConverterState`. That class holds the component's `error` and `success` state, and its methods `ConvertJsonToCsv` and `HandleFileUpload` update it.

Behaviour of the code that the model keeps:

- Apart from call-stack exhaustion, only a `null` record fails, because `Object.keys(null)` throws. A boolean or number record flattens to an empty record. A string or array record is flattened from its index properties `"0"`, `"1"`, and so on.
- Any non-array value, scalars included, is wrapped in a one-element list of records.
- Key collisions are not reported: the last write to a path wins.

## Model

| member | source | states |
|---|---|---|
| `Json.IsNestedObject` | JsonToCsvConverter.js:13 | The nested-object test holds exactly for a value that is not a boolean, number or string (`typeof` is `'object'`), not `null` and not an array. |
| `Json.OwnEntries` | JsonToCsvConverter.js:11-16 | `Object.keys(obj)` with `obj[k]` fails only on `null`. A boolean or number has no properties. A string or array has one property per index. An object's properties are its fields. |
| `Dict.Put` | JsonToCsvConverter.js:16 | A property assignment keeps the existing key order and appends a new key at the end; when the key is new, the result is the old entries followed by the new pair. Every entry is the new pair or was already present. |
| `Dict.PutLookup` | JsonToCsvConverter.js:16 | After `acc[k] = v`, looking up `k` gives `v` and every other name gives what it gave before. |
| `Dict.PutAll` | JsonToCsvConverter.js:14 | `Object.assign` appends the source's new keys in order, after the existing ones. Each key's value is the source's last write to it, or the old value when the source never writes it. No entry comes from anywhere else. |
| `Dict.LastWriteSpec` | JsonToCsvConverter.js:14-16 | The value that wins at a path is the one written by the last write to that path. There is no value exactly when nothing writes the path. |
| `Dict.PutAllOfBuilt` | JsonToCsvConverter.js:14 | Merging a nested result built from a list of writes equals performing those writes directly on the accumulator. |
| `Dict.PutAllConcat` | JsonToCsvConverter.js:11-19 | Performing writes `a` and then writes `b` equals performing `a + b`. This is why the fold can be replayed piecewise. |
| `Flatten.Join` | JsonToCsvConverter.js:12 | Definition of the path `pre + k` at line 12. `PathOfScalar`, `PathOfNestedScalar` and `NestedFieldPaths` state the no-dot-after-empty-prefix rule about flattened keys. |
| `Flatten.FlattenFrom` | JsonToCsvConverter.js:11-19 | The reduce with accumulator `acc` keeps keys distinct. It never stores a nested object when `acc` holds none. |
| `Flatten.Flattened` | JsonToCsvConverter.js:10-11 | `flattenObject(obj, prefix)` starts the reduce from an empty object. Its result has distinct keys and holds no nested object. |
| `Flatten.Leaves` | JsonToCsvConverter.js:13-16 | The reference list of leaf writes, in traversal order, holds no nested object. Scalars, `null` and arrays are leaves. |
| `Flatten.FlattenObject` | JsonToCsvConverter.js:10-20 | The imperative `flattenObject` returns exactly `Flattened(fields, prefix)`. The loop's accumulator follows the reduce step by step, and the recursion covers nested objects. |
| `Flatten.FlattenIsReplay` | JsonToCsvConverter.js:11-19 | Flattening from any accumulator with distinct keys equals replaying every leaf write, in traversal order, into that accumulator. |
| `Flatten.FlattenedKeys` | JsonToCsvConverter.js:11-19 | The flattened record has distinct keys. They are exactly the leaf paths, in the order each path is first written. |
| `Flatten.FlattenedLookup` | JsonToCsvConverter.js:14-16 | Last write wins: the value stored at a path is the value of the last leaf write to that path. |
| `Flatten.FlattenedLeafOnly` | JsonToCsvConverter.js:13-16 | No value in a flattened record is a non-null, non-array object. Every entry is a leaf write, stored verbatim. |
| `Flatten.LeavesConcat` | JsonToCsvConverter.js:11 | The leaves of a concatenation of fields are the leaves of each part, in order. |
| `Flatten.LeavesAt` | JsonToCsvConverter.js:11-17 | A field's leaves sit between the leaves of the fields before it and the leaves of the fields after it. |
| `Flatten.ScalarFieldPath` | JsonToCsvConverter.js:12-16 | A field whose value is not a nested object is written verbatim at `Join(prefix, key)`, and that path is a key of the result. |
| `Flatten.NestedFieldPaths` | JsonToCsvConverter.js:12-14 | Every path of a nested object, flattened under its field's path, is a key of the enclosing result. |
| `Flatten.PathOfScalar` | JsonToCsvConverter.js:12-16 | A top-level key appears unchanged. Under a non-empty prefix `p` it appears as `p + "." + key`. |
| `Flatten.PathOfNestedScalar` | JsonToCsvConverter.js:12-16 | A key `k2` inside a top-level object field `k` appears as `k + "." + k2`. It appears as plain `k2` when `k` is empty, because no dot follows an empty prefix. |
| `Flatten.ScalarValueKept` | JsonToCsvConverter.js:14-16 | A leaf value that no later field writes over is the value stored at its path. |
| `Flatten.FlatObjectUnchanged` | JsonToCsvConverter.js:11-19 | An object with no nested object values flattens to itself: same keys, same values, same order. |
| `Flatten.EmptyObjectVanishes` | JsonToCsvConverter.js:11-14 | A nested empty object contributes no keys. Removing it leaves the result unchanged. |
| `Flatten.NestedPathsExample` | JsonToCsvConverter.js:10-20 | `{a: {b: 1, c: {d: 2}}}` flattens to `{"a.b": 1, "a.c.d": 2}`. |
| `Flatten.ArrayPassThroughExample` | JsonToCsvConverter.js:13-16 | `{a: [1,2,3]}` flattens to itself. The array is not expanded. |
| `Flatten.CollisionExample` | JsonToCsvConverter.js:14-16 | The object `{a: {b: 1}}` and the literal key `"a.b"` both reach path `a.b`. Whichever of them is processed later supplies the value. |
| `Normalize.Records` | JsonToCsvConverter.js:26 | Definition of the ternary at line 26. `NormalisedShape` states the one-record-per-element and single-record results. |
| `Normalize.FlattenedRecord` | JsonToCsvConverter.js:11 | Flattening a record fails exactly when the record is `null`, with the TypeError's message. A boolean or number record has no properties. |
| `Normalize.FlattenedRecordShape` | JsonToCsvConverter.js:11-19 | A successfully flattened record has distinct keys and no nested objects. |
| `Normalize.FlattenedRecords` | JsonToCsvConverter.js:27 | Mapping over the records succeeds exactly when no record is `null`, and fails with the TypeError's message otherwise. On success there is one result per record. |
| `Normalize.FlattenedRecordsAt` | JsonToCsvConverter.js:27 | On success, the result at each position is the flattening of the record at that position, so order is kept. |
| `Normalize.Normalised` | JsonToCsvConverter.js:26-27 | Normalisation fails only with the TypeError's message. A value that is neither an array nor `null` gives exactly one record. |
| `Normalize.NormalisedShape` | JsonToCsvConverter.js:26-27 | An array input gives one record per element, in order. Any other input gives exactly one record. The attempt fails exactly when the input is `null` or an array with a `null` element. |
| `Normalize.FlatObjectRecord` | JsonToCsvConverter.js:26-27 | A single object with no nested objects becomes one record equal to that object. |
| `Normalize.FlattenRecord` | JsonToCsvConverter.js:10-11 | The imperative top-level `flattenObject(item)` returns `FlattenedRecord(item)`. |
| `Normalize.FlattenRecords` | JsonToCsvConverter.js:27 | The imperative `map` stops at the first failure and returns `FlattenedRecords(items)`. |
| `Normalize.AllFlattened` | JsonToCsvConverter.js:27 | When every record flattens successfully, the mapped list is exactly those results, in order. |
| `Converter.Converted` | JsonToCsvConverter.js:24-46 | A parse error is reported with the parser's own message. A successful attempt returns text that the download accepted. |
| `Converter.ConvertedSucceeds` | JsonToCsvConverter.js:24-46 | A conversion succeeds exactly when parsing succeeds, no record is `null`, serialisation succeeds and the download passes. The downloaded text is then the serialised records. |
| `Converter.NullRecordFails` | JsonToCsvConverter.js:24-49 | A `null` record fails the attempt with the TypeError's message, whatever the serialiser and the download would do. |
| `Converter.ConverterState.constructor` | JsonToCsvConverter.js:6-7 | The initial state has no error and no success. |
| `Converter.ConverterState.ConvertJsonToCsv` | JsonToCsvConverter.js:23-51 | On success, `success` is true and `error` is empty. On failure, `success` is false and `error` is `"Error converting JSON to CSV: "` followed by the message. Either way `success` holds exactly when `error` is empty. |
| `Converter.ConverterState.ReportFailure` | JsonToCsvConverter.js:47-49 | The catch branch sets the prefixed message and clears `success`. |
| `Converter.ConverterState.HandleFileUpload` | JsonToCsvConverter.js:54-65 | With no file selected, the state is unchanged. A read failure sets `"Error reading file: "` followed by the message and clears `success`. Otherwise the outcome is that of `ConvertJsonToCsv`. After any attempt, `success` holds exactly when `error` is empty. |

## Left out

- Rendering (JsonToCsvConverter.js:67-134) is presentational markup with no logic.
- `JSON.parse` (JsonToCsvConverter.js:25) is a host-library parser. It is the `parse` field of `Converter.Host`, which returns a value or an error message. The non-string branch of line 25 cannot be reached from `handleFileUpload`, which always passes text, so it is not modelled.
- `Papa.unparse` (JsonToCsvConverter.js:29-33) is a third-party serialiser whose source is not part of this model. It is the `unparse` field of `Converter.Host`, a function of the flattened records that may fail. Header union, padding and quoting are not modelled.
- The Blob, object-URL and anchor download (JsonToCsvConverter.js:35-43) is browser I/O. It is the `download` field of `Converter.Host`, which passes or fails.
- `file.text()` (JsonToCsvConverter.js:59) is asynchronous browser I/O. It is the `FileRead` argument of `HandleFileUpload`. Events that interleave with the `await`, and React's deferred state updates, are not modelled: each attempt is applied as one step.
- `Object.keys` lists integer-like property names first, in ascending numeric order. The model keeps plain insertion order for every key.
- Assigning to the property name `__proto__` changes the accumulator's prototype instead of creating a property. The model treats `__proto__` as an ordinary key.
- Strings are sequences of Unicode scalar values. JavaScript indexes a string record by UTF-16 code units, so index keys differ for characters outside the Basic Multilingual Plane.
- JSON numbers are IEEE doubles. They are opaque integer leaves here, because their value never affects flattening.
- `Normalize.NullRecordMessage` is V8's wording for the TypeError `Object.keys(null)` throws. Other engines word it differently.
- `JSON.parse` keeps one property per name, but a `JObject` value may list the same name twice. Such values are not collapsed to their last occurrence, so each occurrence is flattened as a separate write. No contract depends on this: the lemmas about flattened results hold for any input.
- Recursion depth is unbounded in the model. A JavaScript engine throws a RangeError when nesting exceeds its call stack, and the catch reports that as a conversion error.

=== FILE: converter.dfy ===
/**
  The conversion attempt and the component's status state (`error`,
  `success`). Parsing, CSV serialisation and the download are host-library
  calls whose code is not part of this model: they are the fields of a
  `Host`, each of which may throw.
 */
module Converter {
  import opened Wrappers
  import opened Json
  import opened Normalize

  /** Completion of a host call that returns nothing: it either passes or throws with a message. */
  datatype Outcome = Pass | Fail(message: string)

  /** The host calls a conversion makes. */
  datatype Host = Host(
    parse: string -> Result<JsonValue>,        // JSON.parse
    unparse: seq<Entries> -> Result<string>,   // Papa.unparse with quotes, skipEmptyLines and header
    download: string -> Outcome                // Blob, object URL and the hidden anchor's click
  )

  /** What `file.text()` gives: the file's text, or the message of the error it throws. */
  datatype FileRead = Read(text: string) | ReadFailed(message: string)

  const ConvertErrorPrefix := "Error converting JSON to CSV: "
  const ReadErrorPrefix := "Error reading file: "

  /** The body of the `try` in `convertJsonToCsv`: the CSV text that was downloaded,
      or the message of the first exception. */
  function Converted(host: Host, text: string): (r: Result<string>)
    ensures host.parse(text).Err? ==> r == Err(host.parse(text).error)
    ensures r.Ok? ==> host.download(r.value).Pass?
  {
    match host.parse(text)
    case Err(m) => Err(m)
    case Ok(data) =>
      match Normalised(data)
      case Err(m) => Err(m)
      case Ok(records) =>
        match host.unparse(records)
        case Err(m) => Err(m)
        case Ok(csv) =>
          match host.download(csv)
          case Fail(m) => Err(m)
          case Pass => Ok(csv)
  }

  /** A conversion succeeds exactly when every step succeeds; what is downloaded is the serialised records. */
  lemma {:induction false} ConvertedSucceeds(host: Host, text: string)
    ensures Converted(host, text).Ok? <==>
      && host.parse(text).Ok?
      && JNull !in Records(host.parse(text).value)
      && host.unparse(Normalised(host.parse(text).value).value).Ok?
      && host.download(host.unparse(Normalised(host.parse(text).value).value).value).Pass?
    ensures Converted(host, text).Ok? ==>
      Converted(host, text).value == host.unparse(Normalised(host.parse(text).value).value).value
  {
  }

  /** A `null` record (top-level `null` or a `null` array element) fails the conversion
      before anything is serialised, whatever the serialiser and download would do. */
  lemma {:induction false} NullRecordFails(host: Host, text: string)
    requires host.parse(text).Ok?
    requires var data := host.parse(text).value; data == JNull || (data.JArray? && JNull in data.items)
    ensures Converted(host, text) == Err(NullRecordMessage)
  {
    NormalisedShape(host.parse(text).value);
  }

  class ConverterState {
    var error: string
    var success: bool

    constructor ()
      ensures error == "" && !success
    {
      error := "";
      success := false;
    }

    /** After an attempt exactly one banner shows: success, or an error. */
    predicate Settled()
      reads this
    {
      success <==> error == ""
    }

    /** `convertJsonToCsv(text)`: run the conversion, then record its outcome. */
    method ConvertJsonToCsv(host: Host, text: string)
      modifies this
      ensures Converted(host, text).Ok? ==> success && error == ""
      ensures Converted(host, text).Err? ==>
        !success && error == ConvertErrorPrefix + Converted(host, text).error
      ensures Settled()
    {
      var parsed := host.parse(text);
      if parsed.Err? {
        ReportFailure(parsed.error);
        return;
      }
      var records := FlattenRecords(Records(parsed.value));
      if records.Err? {
        ReportFailure(records.error);
        return;
      }
      var csv := host.unparse(records.value);
      if csv.Err? {
        ReportFailure(csv.error);
        return;
      }
      var downloaded := host.download(csv.value);
      if downloaded.Fail? {
        ReportFailure(downloaded.message);
        return;
      }
      success := true;
      error := "";
    }

    /** The `catch` branch of `convertJsonToCsv`. */
    method ReportFailure(message: string)
      modifies this
      ensures error == ConvertErrorPrefix + message && !success
      ensures Settled()
    {
      error := ConvertErrorPrefix + message;
      success := false;
    }

    /** `handleFileUpload`: no file selected leaves the state alone; a read failure is
        reported with its own prefix; otherwise the text is converted. */
    method HandleFileUpload(host: Host, file: Option<FileRead>)
      modifies this
      ensures file.None? ==> error == old(error) && success == old(success)
      ensures file.Some? && file.value.ReadFailed? ==>
        !success && error == ReadErrorPrefix + file.value.message
      ensures file.Some? && file.value.Read? && Converted(host, file.value.text).Ok? ==>
        success && error == ""
      ensures file.Some? && file.value.Read? && Converted(host, file.value.text).Err? ==>
        !success && error == ConvertErrorPrefix + Converted(host, file.value.text).error
      ensures file.Some? ==> Settled()
    {
      if file.None? {
        return;
      }
      match file.value
      case ReadFailed(m) =>
        error := ReadErrorPrefix + m;
        success := false;
      case Read(text) =>
        ConvertJsonToCsv(host, text);
    }
  }
}

=== FILE: dict.dfy ===
/**
  The ordered-dictionary semantics of a plain JavaScript object used as an
  accumulator: assigning a property updates it where it stands or appends
  it at the end, and `Object.assign` replays the source's properties in
  order.
 */
module Dict {
  import opened Wrappers
  import opened Json

  /** Key order after writing `k`: unchanged if present, else `k` appended. */
  function Ins(ks: seq<string>, k: string): seq<string> {
    if k in ks then ks else ks + [k]
  }

  /** Key order after writing the names `ns`, in order, into an object with keys `ks`. */
  function AppendNew(ks: seq<string>, ns: seq<string>): (r: seq<string>)
    ensures forall x :: x in r <==> x in ks || x in ns
    ensures ks <= r
    ensures Distinct(ks) ==> Distinct(r)
    decreases |ns|
  {
    if ns == [] then ks else Ins(AppendNew(ks, ns[..|ns| - 1]), ns[|ns| - 1])
  }

  /** `acc[k] = v`. */
  function Put(acc: Entries, k: string, v: JsonValue): (r: Entries)
    ensures KeysOf(r) == Ins(KeysOf(acc), k)
    ensures k !in KeysOf(acc) ==> r == acc + [(k, v)]
    ensures forall e :: e in r ==> e == (k, v) || e in acc
  {
    if acc == [] then [(k, v)]
    else
      var head, rest := acc[0], acc[1..];
      assert acc == [head] + rest;
      assert KeysOf(acc) == [head.0] + KeysOf(rest);
      if head.0 == k then
        [(k, v)] + rest
      else
        var tail := Put(rest, k, v);
        assert KeysOf([head] + tail) == [head.0] + KeysOf(tail);
        assert k !in KeysOf(acc) ==> [head] + tail == acc + [(k, v)] by {
          if k !in KeysOf(acc) {
            assert [head] + (rest + [(k, v)]) == ([head] + rest) + [(k, v)];
          }
        }
        [head] + tail
  }

  /** After `acc[k] = v`, reading `k` gives `v` and reading any other name gives what it gave before. */
  lemma {:induction false} PutLookup(acc: Entries, k: string, v: JsonValue)
    ensures forall q :: Lookup(Put(acc, k, v), q) == if q == k then Some(v) else Lookup(acc, q)
  {
    if acc != [] && acc[0].0 != k {
      var tail := Put(acc[1..], k, v);
      PutLookup(acc[1..], k, v);
      assert Put(acc, k, v)[1..] == tail;
    } else if acc != [] {
      assert Put(acc, k, v)[1..] == acc[1..];
    }
  }

  /** The value of the last write to `q` in `ws`, if any. */
  function LastWrite(ws: Entries, q: string): Option<JsonValue>
    decreases |ws|
  {
    if ws == [] then None
    else if ws[|ws| - 1].0 == q then Some(ws[|ws| - 1].1)
    else LastWrite(ws[..|ws| - 1], q)
  }

  /** `Object.assign(acc, src)` where `src` has properties `ws`: each property written in turn. */
  function PutAll(acc: Entries, ws: Entries): (r: Entries)
    ensures KeysOf(r) == AppendNew(KeysOf(acc), KeysOf(ws))
    ensures forall q :: Lookup(r, q) == if LastWrite(ws, q).Some? then LastWrite(ws, q) else Lookup(acc, q)
    ensures forall e :: e in r ==> e in ws || e in acc
    decreases |ws|
  {
    if ws == [] then acc
    else
      var init := ws[..|ws| - 1];
      assert init + [ws[|ws| - 1]] == ws;
      KeysOfConcat(init, [ws[|ws| - 1]]);
      PutLookup(PutAll(acc, init), ws[|ws| - 1].0, ws[|ws| - 1].1);
      Put(PutAll(acc, init), ws[|ws| - 1].0, ws[|ws| - 1].1)
  }

  /** Entry `i` of `ws` writes `v` to `q`, and no later entry writes `q`. */
  predicate IsLastWrite(ws: Entries, q: string, v: JsonValue, i: int) {
    0 <= i < |ws| && ws[i] == (q, v) && forall j :: i < j < |ws| ==> ws[j].0 != q
  }

  /** Last write wins: `LastWrite` gives the value of the write to `q` that no later write to `q` follows,
      and nothing exactly when no entry writes `q`. */
  lemma {:induction false} LastWriteSpec(ws: Entries, q: string, v: JsonValue)
    ensures LastWrite(ws, q) == Some(v) <==> exists i :: IsLastWrite(ws, q, v, i)
    ensures LastWrite(ws, q).None? <==> q !in KeysOf(ws)
  {
    if LastWrite(ws, q) == Some(v) {
      var i := LastWriteIndex(ws, q);
    }
    if exists i :: IsLastWrite(ws, q, v, i) {
      var i :| IsLastWrite(ws, q, v, i);
      LastWriteFromIndex(ws, q, v, i);
    }
    LastWriteNone(ws, q);
  }

  lemma {:induction false} LastWriteIndex(ws: Entries, q: string) returns (i: int)
    requires LastWrite(ws, q).Some?
    ensures IsLastWrite(ws, q, LastWrite(ws, q).value, i)
    decreases |ws|
  {
    var n := |ws| - 1;
    if ws[n].0 == q {
      i := n;
    } else {
      var init := ws[..n];
      i := LastWriteIndex(init, q);
      assert ws[i] == init[i];
      assert forall j :: i < j < n ==> ws[j] == init[j];
    }
  }

  lemma {:induction false} LastWriteFromIndex(ws: Entries, q: string, v: JsonValue, i: int)
    requires IsLastWrite(ws, q, v, i)
    ensures LastWrite(ws, q) == Some(v)
    decreases |ws|
  {
    var n := |ws| - 1;
    if i < n {
      var init := ws[..n];
      assert ws[n].0 != q;
      assert IsLastWrite(init, q, v, i) by {
        assert forall j :: i < j < |init| ==> init[j] == ws[j];
      }
      LastWriteFromIndex(init, q, v, i);
    }
  }

  lemma {:induction false} LastWriteNone(ws: Entries, q: string)
    ensures LastWrite(ws, q).None? <==> q !in KeysOf(ws)
    decreases |ws|
  {
    if ws != [] {
      var n := |ws| - 1;
      LastWriteNone(ws[..n], q);
      assert ws[..n] + [ws[n]] == ws;
      KeysOfConcat(ws[..n], [ws[n]]);
    }
  }

  /** On an object with distinct keys, the last write to a key is its only entry. */
  lemma {:induction false} LastWriteOfDistinct(d: Entries, q: string)
    requires DistinctKeys(d)
    ensures LastWrite(d, q) == Lookup(d, q)
  {
    LastWriteNone(d, q);
    if Lookup(d, q).Some? {
      var i := LookupIndex(d, q);
      KeysOfIndex(d);
      assert forall j :: i < j < |d| ==> d[j].0 != q by {
        assert forall j :: i < j < |d| ==> KeysOf(d)[i] != KeysOf(d)[j];
      }
      LastWriteFromIndex(d, q, d[i].1, i);
    }
  }

  /** The index of the entry that `Lookup` finds. */
  lemma {:induction false} LookupIndex(es: Entries, q: string) returns (i: nat)
    requires Lookup(es, q).Some?
    ensures i < |es| && es[i] == (q, Lookup(es, q).value)
  {
    if es[0].0 == q {
      i := 0;
    } else {
      var k := LookupIndex(es[1..], q);
      i := k + 1;
    }
  }

  /** Two objects with distinct keys are equal when their keys come in the same order and every lookup agrees. */
  lemma {:induction false} Extensionality(a: Entries, b: Entries)
    requires DistinctKeys(a)
    requires KeysOf(a) == KeysOf(b)
    requires forall q :: Lookup(a, q) == Lookup(b, q)
    ensures a == b
  {
    if a != [] {
      KeysOfIndex(a);
      KeysOfIndex(b);
      assert a[0].0 == KeysOf(a)[0] == KeysOf(b)[0] == b[0].0;
      assert Lookup(a, a[0].0) == Some(a[0].1) && Lookup(b, b[0].0) == Some(b[0].1);
      assert KeysOf(a[1..]) == KeysOf(a)[1..] == KeysOf(b)[1..] == KeysOf(b[1..]);
      assert a[0].0 !in KeysOf(a[1..]) by {
        assert forall j :: 1 <= j < |a| ==> KeysOf(a)[0] != KeysOf(a)[j];
      }
      forall q ensures Lookup(a[1..], q) == Lookup(b[1..], q) {
        if q != a[0].0 {
          assert Lookup(a, q) == Lookup(a[1..], q);
        }
      }
      Extensionality(a[1..], b[1..]);
    }
  }

  /** Replaying a deduplicated write sequence adds keys in the same order as replaying the original. */
  lemma {:induction false} AppendNewDedup(ks: seq<string>, ns: seq<string>)
    ensures AppendNew(ks, AppendNew([], ns)) == AppendNew(ks, ns)
    decreases |ns|
  {
    if ns != [] {
      var n := |ns| - 1;
      var d := AppendNew([], ns[..n]);
      AppendNewDedup(ks, ns[..n]);
      if ns[n] !in d {
        assert AppendNew([], ns) == d + [ns[n]];
        assert (d + [ns[n]])[..|d|] == d;
      }
    }
  }

  /** `Object.assign(acc, src)` where `src` was itself built by the writes `ws` equals writing `ws` into `acc` directly. */
  lemma {:induction false} PutAllOfBuilt(acc: Entries, ws: Entries)
    requires DistinctKeys(acc)
    ensures PutAll(acc, PutAll([], ws)) == PutAll(acc, ws)
  {
    var d := PutAll([], ws);
    assert DistinctKeys(d);
    AppendNewDedup(KeysOf(acc), KeysOf(ws));
    forall q ensures Lookup(PutAll(acc, d), q) == Lookup(PutAll(acc, ws), q) {
      LastWriteOfDistinct(d, q);
    }
    Extensionality(PutAll(acc, d), PutAll(acc, ws));
  }

  /** Writing `a` and then `b` is writing `a + b`. */
  lemma {:induction false} PutAllConcat(acc: Entries, a: Entries, b: Entries)
    ensures PutAll(PutAll(acc, a), b) == PutAll(acc, a + b)
    decreases |b|
  {
    if b == [] {
      assert a + b == a;
    } else {
      var n := |b| - 1;
      var init := b[..n];
      var w := b[n];
      assert b == init + [w];
      assert a + b == (a + init) + [w];
      var p := PutAll(acc, a + init);
      var p2 := PutAll(PutAll(acc, a), init);
      assert p == p2 by { PutAllConcat(acc, a, init); }
      assert PutAll(acc, (a + init) + [w]) == Put(p, w.0, w.1) by { PutAllSnoc(acc, a + init, w); }
      assert PutAll(PutAll(acc, a), init + [w]) == Put(p2, w.0, w.1) by { PutAllSnoc(PutAll(acc, a), init, w); }
    }
  }

  lemma {:induction false} PutAllSnoc(acc: Entries, ws: Entries, w: (string, JsonValue))
    ensures PutAll(acc, ws + [w]) == Put(PutAll(acc, ws), w.0, w.1)
  {
    assert (ws + [w])[..|ws|] == ws;
  }

  /** Replaying writes with distinct keys into an empty object rebuilds them exactly. */
  lemma {:induction false} PutAllDistinct(ws: Entries)
    requires DistinctKeys(ws)
    ensures PutAll([], ws) == ws
    decreases |ws|
  {
    if ws != [] {
      var n := |ws| - 1;
      assert ws[..n] + [ws[n]] == ws;
      KeysOfConcat(ws[..n], [ws[n]]);
      KeysOfIndex(ws);
      assert KeysOf(ws[..n]) == KeysOf(ws)[..n];
      PutAllDistinct(ws[..n]);
      assert ws[n].0 !in KeysOf(ws[..n]) by {
        assert forall j :: 0 <= j < n ==> KeysOf(ws)[j] != KeysOf(ws)[n];
      }
    }
  }
}

=== FILE: flatten.dfy ===
/**
  `flattenObject(obj, prefix)`: collapse a nested object into one level of
  dotted property paths, recursing into nested (non-null, non-array)
  objects and copying every other value verbatim.
 */
module Flatten {
  import opened Wrappers
  import opened Json
  import opened Dict

  /** The path of property `k` under `prefix`: a dot is inserted only when the prefix is non-empty. */
  function Join(prefix: string, k: string): string {
    (if |prefix| > 0 then prefix + "." else "") + k
  }

  /** The reduce in `flattenObject`, continued from accumulator `acc` over the remaining `fields`:
      a nested object is flattened under its path and merged with `Object.assign`, any other
      value is assigned at its path. */
  function FlattenFrom(acc: Entries, fields: Entries, prefix: string): (r: Entries)
    ensures DistinctKeys(acc) ==> DistinctKeys(r)
    ensures (forall e :: e in acc ==> !IsNestedObject(e.1)) ==> forall e :: e in r ==> !IsNestedObject(e.1)
    decreases fields
  {
    if fields == [] then acc
    else
      var k, v := fields[0].0, fields[0].1;
      var path := Join(prefix, k);
      assert fields decreases to fields[0];
      var next := if IsNestedObject(v) then PutAll(acc, FlattenFrom([], v.fields, path)) else Put(acc, path, v);
      FlattenFrom(next, fields[1..], prefix)
  }

  /** `flattenObject(obj, prefix)` for an object whose properties are `fields`. */
  function Flattened(fields: Entries, prefix: string): (r: Entries)
    ensures DistinctKeys(r)
    ensures forall e :: e in r ==> !IsNestedObject(e.1)
  {
    FlattenFrom([], fields, prefix)
  }

  /** Every leaf the traversal reaches, as a (path, value) write, in traversal order:
      the reference definition of what flattening records. */
  function Leaves(fields: Entries, prefix: string): (ws: Entries)
    ensures forall e :: e in ws ==> !IsNestedObject(e.1)
    decreases fields
  {
    if fields == [] then []
    else
      var k, v := fields[0].0, fields[0].1;
      var path := Join(prefix, k);
      assert fields decreases to fields[0];
      (if IsNestedObject(v) then Leaves(v.fields, path) else [(path, v)]) + Leaves(fields[1..], prefix)
  }

  /** Imperative `flattenObject`: the reduce is a loop that mutates the accumulator `acc`. */
  method FlattenObject(fields: Entries, prefix: string) returns (acc: Entries)
    ensures acc == Flattened(fields, prefix)
    decreases fields
  {
    acc := [];
    var pre := if |prefix| > 0 then prefix + "." else "";
    var i := 0;
    while i < |fields|
      invariant 0 <= i <= |fields|
      invariant FlattenFrom(acc, fields[i..], prefix) == Flattened(fields, prefix)
    {
      var k, v := fields[i].0, fields[i].1;
      assert fields[i..][1..] == fields[i + 1..];
      assert fields decreases to fields[i];
      if IsNestedObject(v) {
        var sub := FlattenObject(v.fields, pre + k);
        acc := PutAll(acc, sub);
      } else {
        acc := Put(acc, pre + k, v);
      }
      i := i + 1;
    }
  }

  /** Flattening replays the leaf writes, in traversal order, into the accumulator. */
  lemma {:induction false} FlattenIsReplay(acc: Entries, fields: Entries, prefix: string)
    requires DistinctKeys(acc)
    ensures FlattenFrom(acc, fields, prefix) == PutAll(acc, Leaves(fields, prefix))
    decreases fields
  {
    if fields != [] {
      var k, v := fields[0].0, fields[0].1;
      var path := Join(prefix, k);
      var rest := Leaves(fields[1..], prefix);
      assert fields decreases to fields[0];
      if IsNestedObject(v) {
        var inner := Leaves(v.fields, path);
        FlattenIsReplay([], v.fields, path);
        PutAllOfBuilt(acc, inner);
        var next := PutAll(acc, inner);
        FlattenIsReplay(next, fields[1..], prefix);
        PutAllConcat(acc, inner, rest);
      } else {
        PutAllSnoc(acc, [], (path, v));
        var next := Put(acc, path, v);
        FlattenIsReplay(next, fields[1..], prefix);
        PutAllConcat(acc, [(path, v)], rest);
      }
    }
  }

  /** The flattened record has distinct keys: exactly the leaf paths, each once, in the order of their first write. */
  lemma {:induction false} FlattenedKeys(fields: Entries, prefix: string)
    ensures KeysOf(Flattened(fields, prefix)) == AppendNew([], KeysOf(Leaves(fields, prefix)))
    ensures DistinctKeys(Flattened(fields, prefix))
    ensures forall q :: q in KeysOf(Flattened(fields, prefix)) <==> q in KeysOf(Leaves(fields, prefix))
  {
    FlattenIsReplay([], fields, prefix);
  }

  /** Last write wins: the value stored at a path is that of the last leaf written to it. */
  lemma {:induction false} FlattenedLookup(fields: Entries, prefix: string, q: string)
    ensures Lookup(Flattened(fields, prefix), q) == LastWrite(Leaves(fields, prefix), q)
  {
    FlattenIsReplay([], fields, prefix);
  }

  /** No value in a flattened record is a nested object; everything else is kept as it was. */
  lemma {:induction false} FlattenedLeafOnly(fields: Entries, prefix: string)
    ensures forall e :: e in Flattened(fields, prefix) ==> !IsNestedObject(e.1) && e in Leaves(fields, prefix)
  {
    FlattenIsReplay([], fields, prefix);
  }

  lemma {:induction false} LeavesConcat(a: Entries, b: Entries, prefix: string)
    ensures Leaves(a + b, prefix) == Leaves(a, prefix) + Leaves(b, prefix)
  {
    if a == [] {
      assert a + b == b;
    } else {
      assert (a + b)[0] == a[0];
      assert (a + b)[1..] == a[1..] + b;
      LeavesConcat(a[1..], b, prefix);
    }
  }

  /** The leaves of one field sit between those of the fields before and after it. */
  lemma {:induction false} LeavesAt(fields: Entries, i: nat, prefix: string)
    requires i < |fields|
    ensures Leaves(fields, prefix) ==
      Leaves(fields[..i], prefix) + Leaves([fields[i]], prefix) + Leaves(fields[i + 1..], prefix)
  {
    assert fields == fields[..i] + [fields[i]] + fields[i + 1..];
    LeavesConcat(fields[..i] + [fields[i]], fields[i + 1..], prefix);
    LeavesConcat(fields[..i], [fields[i]], prefix);
  }

  /** A field whose value is not a nested object is written verbatim at its path. */
  lemma {:induction false} ScalarFieldPath(fields: Entries, i: nat, prefix: string)
    requires i < |fields| && !IsNestedObject(fields[i].1)
    ensures (Join(prefix, fields[i].0), fields[i].1) in Leaves(fields, prefix)
    ensures Join(prefix, fields[i].0) in KeysOf(Flattened(fields, prefix))
  {
    LeavesAt(fields, i, prefix);
    var path := Join(prefix, fields[i].0);
    var ws := Leaves(fields, prefix);
    var at := |Leaves(fields[..i], prefix)|;
    assert ws[at] == (path, fields[i].1);
    KeysOfIndex(ws);
    assert KeysOf(ws)[at] == path;
    FlattenedKeys(fields, prefix);
  }

  /** Every path of a nested object, flattened under its field's path, is a path of the whole. */
  lemma {:induction false} NestedFieldPaths(fields: Entries, i: nat, prefix: string)
    requires i < |fields| && IsNestedObject(fields[i].1)
    ensures forall q :: q in KeysOf(Flattened(fields[i].1.fields, Join(prefix, fields[i].0))) ==>
      q in KeysOf(Flattened(fields, prefix))
  {
    var inner := Leaves(fields[i].1.fields, Join(prefix, fields[i].0));
    var before := Leaves(fields[..i], prefix);
    var after := Leaves(fields[i + 1..], prefix);
    assert Leaves(fields, prefix) == before + inner + after by {
      LeavesAt(fields, i, prefix);
    }
    KeysOfConcat(before, inner);
    KeysOfConcat(before + inner, after);
    FlattenedKeys(fields[i].1.fields, Join(prefix, fields[i].0));
    FlattenedKeys(fields, prefix);
  }

  /** A top-level key appears unchanged; under a non-empty prefix it is joined with a dot. */
  lemma {:induction false} PathOfScalar(fields: Entries, i: nat, prefix: string)
    requires i < |fields| && !IsNestedObject(fields[i].1)
    ensures (if prefix == "" then fields[i].0 else prefix + "." + fields[i].0) in KeysOf(Flattened(fields, prefix))
  {
    ScalarFieldPath(fields, i, prefix);
    assert prefix == "" ==> Join(prefix, fields[i].0) == fields[i].0;
  }

  /** A key `k2` nested under a top-level key `k` appears as `k.k2`, or as `k2` alone when `k` is empty. */
  lemma {:induction false} PathOfNestedScalar(fields: Entries, i: nat, j: nat)
    requires i < |fields| && IsNestedObject(fields[i].1)
    requires j < |fields[i].1.fields| && !IsNestedObject(fields[i].1.fields[j].1)
    ensures var k, k2 := fields[i].0, fields[i].1.fields[j].0;
      (if k == "" then k2 else k + "." + k2) in KeysOf(Flattened(fields, ""))
  {
    var k, k2 := fields[i].0, fields[i].1.fields[j].0;
    assert Join("", k) == k;
    assert Join(k, k2) == if k == "" then k2 else k + "." + k2;
    ScalarFieldPath(fields[i].1.fields, j, k);
    NestedFieldPaths(fields, i, "");
  }

  /** A leaf written at `path` that no later field overwrites keeps its value. */
  lemma {:induction false} ScalarValueKept(fields: Entries, i: nat, prefix: string)
    requires i < |fields| && !IsNestedObject(fields[i].1)
    requires Join(prefix, fields[i].0) !in KeysOf(Leaves(fields[i + 1..], prefix))
    ensures Lookup(Flattened(fields, prefix), Join(prefix, fields[i].0)) == Some(fields[i].1)
  {
    var path, v := Join(prefix, fields[i].0), fields[i].1;
    LeavesAt(fields, i, prefix);
    var before := Leaves(fields[..i], prefix);
    var after := Leaves(fields[i + 1..], prefix);
    var ws := Leaves(fields, prefix);
    assert ws == before + [(path, v)] + after;
    var at := |before|;
    assert ws[at] == (path, v);
    KeysOfIndex(after);
    forall j | at < j < |ws| ensures ws[j].0 != path {
      assert ws[j] == after[j - at - 1];
      assert KeysOf(after)[j - at - 1] == ws[j].0;
    }
    LastWriteFromIndex(ws, path, v, at);
    FlattenedLookup(fields, prefix, path);
  }

  /** An object with no nested object values flattens to itself: same keys, same values, same order. */
  lemma {:induction false} FlatObjectUnchanged(fields: Entries)
    requires DistinctKeys(fields)
    requires forall e :: e in fields ==> !IsNestedObject(e.1)
    ensures Flattened(fields, "") == fields
  {
    LeavesOfFlat(fields);
    FlattenIsReplay([], fields, "");
    PutAllDistinct(fields);
  }

  lemma {:induction false} LeavesOfFlat(fields: Entries)
    requires forall e :: e in fields ==> !IsNestedObject(e.1)
    ensures Leaves(fields, "") == fields
  {
    if fields != [] {
      assert fields[0] in fields;
      assert Join("", fields[0].0) == fields[0].0;
      assert forall e :: e in fields[1..] ==> e in fields;
      LeavesOfFlat(fields[1..]);
    }
  }

  /** A nested empty object contributes no keys: removing it changes nothing. */
  lemma {:induction false} EmptyObjectVanishes(a: Entries, k: string, b: Entries, prefix: string)
    ensures Flattened(a + [(k, JObject([]))] + b, prefix) == Flattened(a + b, prefix)
  {
    var e: Entries := [(k, JObject([]))];
    assert Leaves(e, prefix) == [] by {
      assert e[1..] == [];
    }
    assert Leaves(a + e + b, prefix) == Leaves(a + b, prefix) by {
      LeavesConcat(a + e, b, prefix);
      LeavesConcat(a, e, prefix);
      LeavesConcat(a, b, prefix);
    }
    FlattenIsReplay([], a + e + b, prefix);
    FlattenIsReplay([], a + b, prefix);
  }

  /** `{a: {b: 1, c: {d: 2}}}` flattens to `{"a.b": 1, "a.c.d": 2}`. */
  lemma NestedPathsExample()
    ensures Flattened([("a", JObject([("b", JNumber(1)), ("c", JObject([("d", JNumber(2))]))]))], "")
         == [("a.b", JNumber(1)), ("a.c.d", JNumber(2))]
  {
    var inner: Entries := [("d", JNumber(2))];
    var mid: Entries := [("b", JNumber(1)), ("c", JObject(inner))];
    var outer: Entries := [("a", JObject(mid))];
    assert Join("", "a") == "a" && Join("a", "b") == "a.b" && Join("a", "c") == "a.c" && Join("a.c", "d") == "a.c.d";
    assert inner[1..] == [] && mid[1..][1..] == [] && outer[1..] == [];
    assert Leaves(inner, "a.c") == [("a.c.d", JNumber(2))];
    assert Leaves(mid[1..], "a") == [("a.c.d", JNumber(2))];
    assert Leaves(mid, "a") == [("a.b", JNumber(1)), ("a.c.d", JNumber(2))];
    assert Leaves(outer, "") == [("a.b", JNumber(1)), ("a.c.d", JNumber(2))];
    FlatObjectUnchanged([("a.b", JNumber(1)), ("a.c.d", JNumber(2))]);
    LeavesOfFlat([("a.b", JNumber(1)), ("a.c.d", JNumber(2))]);
    FlattenIsReplay([], outer, "");
    FlattenIsReplay([], [("a.b", JNumber(1)), ("a.c.d", JNumber(2))], "");
  }

  /** An array value is stored as it is, not expanded into columns. */
  lemma ArrayPassThroughExample()
    ensures Flattened([("a", JArray([JNumber(1), JNumber(2), JNumber(3)]))], "")
         == [("a", JArray([JNumber(1), JNumber(2), JNumber(3)]))]
  {
    FlatObjectUnchanged([("a", JArray([JNumber(1), JNumber(2), JNumber(3)]))]);
  }

  /** Two entries reaching the path "a.b": the one processed later wins, in either order. */
  lemma CollisionExample()
    ensures Flattened([("a", JObject([("b", JNumber(1))])), ("a.b", JNumber(2))], "") == [("a.b", JNumber(2))]
    ensures Flattened([("a.b", JNumber(2)), ("a", JObject([("b", JNumber(1))]))], "") == [("a.b", JNumber(1))]
  {
    LiteralKeyAfterObject();
    ObjectAfterLiteralKey();
  }

  /** `{a: {b: 1}, "a.b": 2}`: the literal key, processed second, supplies the value. */
  lemma LiteralKeyAfterObject()
    ensures Flattened([("a", JObject([("b", JNumber(1))])), ("a.b", JNumber(2))], "") == [("a.b", JNumber(2))]
  {
    var nested: Entries := [("b", JNumber(1))];
    var fields: Entries := [("a", JObject(nested)), ("a.b", JNumber(2))];
    assert Leaves(nested, "a") == [("a.b", JNumber(1))] by {
      assert Join("a", "b") == "a" + "." + "b" == "a.b";
      assert nested[1..] == [];
    }
    assert Join("", "a") == "a" && Join("", "a.b") == "a.b";
    assert fields[1..][1..] == [];
    assert Leaves(fields[1..], "") == [("a.b", JNumber(2))];
    assert Leaves(fields, "") == [("a.b", JNumber(1))] + [("a.b", JNumber(2))];
    FlattenIsReplay([], fields, "");
    SameKeyTwice("a.b", JNumber(1), JNumber(2));
  }

  /** `{"a.b": 2, a: {b: 1}}`: the nested object, processed second, supplies the value. */
  lemma ObjectAfterLiteralKey()
    ensures Flattened([("a.b", JNumber(2)), ("a", JObject([("b", JNumber(1))]))], "") == [("a.b", JNumber(1))]
  {
    var nested: Entries := [("b", JNumber(1))];
    var fields: Entries := [("a.b", JNumber(2)), ("a", JObject(nested))];
    assert Leaves(nested, "a") == [("a.b", JNumber(1))] by {
      assert Join("a", "b") == "a" + "." + "b" == "a.b";
      assert nested[1..] == [];
    }
    assert Join("", "a") == "a" && Join("", "a.b") == "a.b";
    assert fields[1..][1..] == [];
    assert Leaves(fields[1..], "") == [("a.b", JNumber(1))];
    assert Leaves(fields, "") == [("a.b", JNumber(2))] + [("a.b", JNumber(1))];
    FlattenIsReplay([], fields, "");
    SameKeyTwice("a.b", JNumber(2), JNumber(1));
  }

  /** Two writes to one path leave a single entry holding the second value. */
  lemma SameKeyTwice(p: string, x: JsonValue, y: JsonValue)
    ensures PutAll([], [(p, x)] + [(p, y)]) == [(p, y)]
  {
    PutAllConcat([], [(p, x)], [(p, y)]);
    assert PutAll([], [(p, x)]) == [(p, x)];
    assert PutAll([(p, x)], [(p, y)]) == [(p, y)];
  }
}

=== FILE: json.dfy ===
/**
  Parsed JSON values, and the own enumerable properties that `Object.keys`
  sees on each of them.
 */
module Json {
  import opened Wrappers

  /** A parsed JSON value. Objects keep their properties in insertion order;
      numbers are opaque leaves (their value never matters to flattening).
      `JSON.parse` yields objects whose names are distinct; the type itself
      does not enforce that. */
  datatype JsonValue =
    | JNull
    | JBool(b: bool)
    | JNumber(n: int)
    | JString(s: string)
    | JArray(items: seq<JsonValue>)
    | JObject(fields: seq<(string, JsonValue)>)

  /** An ordered list of (property name, value) pairs: the fields of an
      object, a flat record, or a sequence of property writes. */
  type Entries = seq<(string, JsonValue)>

  /** The test `typeof x === 'object' && x !== null && !Array.isArray(x)`. */
  predicate IsNestedObject(v: JsonValue)
    ensures IsNestedObject(v) <==> !(v.JBool? || v.JNumber? || v.JString?) && v != JNull && !v.JArray?
  {
    v.JObject?
  }

  /** The property names of `es`, in order. */
  function KeysOf(es: Entries): seq<string> {
    if es == [] then [] else [es[0].0] + KeysOf(es[1..])
  }

  lemma {:induction false} KeysOfIndex(es: Entries)
    ensures |KeysOf(es)| == |es|
    ensures forall i :: 0 <= i < |es| ==> KeysOf(es)[i] == es[i].0
  {
    if es != [] {
      KeysOfIndex(es[1..]);
    }
  }

  lemma {:induction false} KeysOfConcat(a: Entries, b: Entries)
    ensures KeysOf(a + b) == KeysOf(a) + KeysOf(b)
  {
    if a == [] {
      assert a + b == b;
    } else {
      assert (a + b)[1..] == a[1..] + b;
      KeysOfConcat(a[1..], b);
    }
  }

  predicate Distinct(ks: seq<string>) {
    forall i, j :: 0 <= i < j < |ks| ==> ks[i] != ks[j]
  }

  /** A JavaScript object never holds two properties with the same name. */
  predicate DistinctKeys(es: Entries) {
    Distinct(KeysOf(es))
  }

  /** Property access `obj[q]` on an ordered property list: the first entry named `q`. */
  function Lookup(es: Entries, q: string): (r: Option<JsonValue>)
    ensures r.None? <==> q !in KeysOf(es)
  {
    if es == [] then None
    else if es[0].0 == q then Some(es[0].1)
    else Lookup(es[1..], q)
  }

  /** The decimal property name of an array or string index ("0", "1", ...). */
  function IndexName(n: nat): string {
    if n < 10 then [DigitChar(n)] else IndexName(n / 10) + [DigitChar(n % 10)]
  }

  function DigitChar(d: nat): char
    requires d < 10
  {
    "0123456789"[d]
  }

  /** What `Object.keys(v)` followed by `v[k]` enumerates when `v` is used as
      a record: `None` for `null` (where `Object.keys` throws a TypeError),
      no properties for booleans and numbers, one property per index for
      strings (each a one-character string) and arrays, and the fields of
      an object. */
  function OwnEntries(v: JsonValue): (r: Option<Entries>)
    ensures r.None? <==> v == JNull
    ensures v.JBool? || v.JNumber? ==> r == Some([])
    ensures v.JString? ==> r.Some? && |r.value| == |v.s|
    ensures v.JArray? ==> r.Some? && |r.value| == |v.items|
    ensures v.JObject? ==> r == Some(v.fields)
  {
    match v
    case JNull => None
    case JBool(_) => Some([])
    case JNumber(_) => Some([])
    case JString(s) => Some(seq(|s|, i requires 0 <= i < |s| => (IndexName(i), JString([s[i]]))))
    case JArray(items) => Some(seq(|items|, i requires 0 <= i < |items| => (IndexName(i), items[i])))
    case JObject(fields) => Some(fields)
  }
}

=== FILE: normalize.dfy ===
/**
  Record normalisation in `convertJsonToCsv`: an array becomes one record per
  element, any other value a single record, and each record is flattened
  with `flattenObject(item)` (no prefix).
 */
module Normalize {
  import opened Wrappers
  import opened Json
  import opened Flatten

  /** The message of the TypeError `Object.keys(null)` throws (V8's wording). */
  const NullRecordMessage := "Cannot convert undefined or null to object"

  /** `Array.isArray(jsonData) ? jsonData : [jsonData]`. */
  function Records(data: JsonValue): seq<JsonValue> {
    if data.JArray? then data.items else [data]
  }

  /** `flattenObject(item)` on one record: `null` throws; any other value is flattened from its own properties. */
  function FlattenedRecord(item: JsonValue): (r: Result<Entries>)
    ensures r.Err? <==> item == JNull
    ensures r.Err? ==> r.error == NullRecordMessage
    ensures item.JBool? || item.JNumber? ==> r == Ok([])
  {
    match OwnEntries(item)
    case None => Err(NullRecordMessage)
    case Some(fields) => Ok(Flattened(fields, ""))
  }

  /** A flattened record is a proper object row: distinct keys and no nested object values.
      This is the contract of `Flattened` restated for a whole record. */
  lemma {:induction false} FlattenedRecordShape(item: JsonValue)
    requires FlattenedRecord(item).Ok?
    ensures DistinctKeys(FlattenedRecord(item).value)
    ensures forall e :: e in FlattenedRecord(item).value ==> !IsNestedObject(e.1)
  {
  }

  /** `dataArray.map(item => flattenObject(item))`: the first `null` record throws. */
  function FlattenedRecords(items: seq<JsonValue>): (r: Result<seq<Entries>>)
    ensures r.Ok? <==> JNull !in items
    ensures r.Err? ==> r.error == NullRecordMessage
    ensures r.Ok? ==> |r.value| == |items|
  {
    if items == [] then Ok([])
    else
      var first, rest := FlattenedRecord(items[0]), FlattenedRecords(items[1..]);
      assert items == [items[0]] + items[1..];
      if first.Err? then Err(first.error)
      else if rest.Err? then Err(rest.error)
      else Ok([first.value] + rest.value)
  }

  /** On success, the i-th result is the flattening of the i-th record. */
  lemma {:induction false} FlattenedRecordsAt(items: seq<JsonValue>)
    requires FlattenedRecords(items).Ok?
    ensures forall i :: 0 <= i < |items| ==> FlattenedRecord(items[i]) == Ok(FlattenedRecords(items).value[i])
  {
    if items != [] {
      var tail := items[1..];
      assert items == [items[0]] + tail;
      assert items[0] != JNull && JNull !in tail;
      var first, rest := FlattenedRecord(items[0]), FlattenedRecords(tail);
      var out := FlattenedRecords(items).value;
      assert out == [first.value] + rest.value;
      FlattenedRecordsAt(tail);
      forall i | 0 <= i < |items|
        ensures FlattenedRecord(items[i]) == Ok(out[i])
      {
        if i > 0 {
          assert items[i] == tail[i - 1] && out[i] == rest.value[i - 1];
        }
      }
    }
  }

  /** The records handed to the CSV serialiser, or the error that stops the conversion. */
  function Normalised(data: JsonValue): (r: Result<seq<Entries>>)
    ensures r.Err? ==> r.error == NullRecordMessage
    ensures !data.JArray? && data != JNull ==> r.Ok? && |r.value| == 1
  {
    FlattenedRecords(Records(data))
  }

  /** One flattened record per array element, in order; exactly one for any other value; `null` records fail. */
  lemma {:induction false} NormalisedShape(data: JsonValue)
    ensures Normalised(data).Err? <==> data == JNull || (data.JArray? && JNull in data.items)
    ensures Normalised(data).Ok? && data.JArray? ==> |Normalised(data).value| == |data.items|
    ensures Normalised(data).Ok? && data.JArray? ==>
      forall i :: 0 <= i < |data.items| ==> FlattenedRecord(data.items[i]) == Ok(Normalised(data).value[i])
    ensures Normalised(data).Ok? && !data.JArray? ==>
      Normalised(data).value == [FlattenedRecord(data).value]
  {
    if Normalised(data).Ok? {
      FlattenedRecordsAt(Records(data));
    }
  }

  /** A single object whose values are all flat comes out as one record equal to the object. */
  lemma {:induction false} FlatObjectRecord(fields: Entries)
    requires DistinctKeys(fields)
    requires forall e :: e in fields ==> !IsNestedObject(e.1)
    ensures Normalised(JObject(fields)) == Ok([fields])
  {
    FlatObjectUnchanged(fields);
    var items := [JObject(fields)];
    assert Records(JObject(fields)) == items;
    assert FlattenedRecord(JObject(fields)) == Ok(fields);
    assert items[1..] == [];
    assert FlattenedRecords(items) == Ok([fields] + []);
    assert [fields] + [] == [fields];
    assert Normalised(JObject(fields)) == FlattenedRecords(items);
  }

  /** Imperative `flattenObject(item)` at the top level, where `Object.keys` may throw. */
  method FlattenRecord(item: JsonValue) returns (r: Result<Entries>)
    ensures r == FlattenedRecord(item)
  {
    match OwnEntries(item)
    case None =>
      r := Err(NullRecordMessage);
    case Some(fields) =>
      var flat := FlattenObject(fields, "");
      r := Ok(flat);
  }

  /** `Array.prototype.map` over the records, stopping at the first exception. */
  method FlattenRecords(items: seq<JsonValue>) returns (r: Result<seq<Entries>>)
    ensures r == FlattenedRecords(items)
  {
    var out: seq<Entries> := [];
    var i := 0;
    while i < |items|
      invariant 0 <= i <= |items|
      invariant |out| == i
      invariant forall j :: 0 <= j < i ==> FlattenedRecord(items[j]) == Ok(out[j])
    {
      var one := FlattenRecord(items[i]);
      if one.Err? {
        assert items[i] in items;
        assert FlattenedRecords(items) == Err(NullRecordMessage);
        r := Err(one.error);
        return;
      }
      var next := out + [one.value];
      forall j | 0 <= j <= i
        ensures FlattenedRecord(items[j]) == Ok(next[j])
      {
        if j < i {
          assert next[j] == out[j];
        }
      }
      out, i := next, i + 1;
    }
    AllFlattened(items, out);
    r := Ok(out);
  }

  /** The converse of `FlattenedRecordsAt`: results that match every record one by one are the mapped list. */
  lemma {:induction false} AllFlattened(items: seq<JsonValue>, out: seq<Entries>)
    requires |out| == |items|
    requires forall j :: 0 <= j < |items| ==> FlattenedRecord(items[j]) == Ok(out[j])
    ensures FlattenedRecords(items) == Ok(out)
  {
    assert JNull !in items by {
      forall j | 0 <= j < |items| ensures items[j] != JNull {
        assert FlattenedRecord(items[j]).Ok?;
      }
    }
    FlattenedRecordsAt(items);
    var mapped := FlattenedRecords(items).value;
    forall j | 0 <= j < |items| ensures mapped[j] == out[j] {
      assert Ok(mapped[j]) == FlattenedRecord(items[j]) == Ok(out[j]);
    }
    assert mapped == out;
  }
}

=== FILE: wrappers.dfy ===
/** Option and Result, for the values a JavaScript expression may fail to produce. */
module Wrappers {

  datatype Option<+T> = None | Some(value: T)

  /** The outcome of a computation that may throw: `Err` carries the thrown error's `message`. */
  datatype Result<+T> = Ok(value: T) | Err(error: string)
}
